=== FILE: README.md ===
# Shopping cart, role gate and error replies of a storefront backend

This project models, in Dafny, the cart and checkout handlers of a sneaker
storefront backend, a role-gate middleware factory, and a global error
handler that turns thrown errors into JSON replies. The role gate and the
error handler are modelled as the functions their files define. In the
files modelled here, no route applies the role gate and the application
never registers the error handler; that wiring is not part of this model.

- **Cart** (`cart_model.dfy`, `cart_total.dfy`, `cart_lines.dfy`,
  `cart_routes.dfy`). Each user's cart lives in a key-value cache under
  `"cart:" + userId`. A cart is a list of lines
  `(shoeId, variantKey, quantity, price, name)`, together with timestamps and
  a stored `total`. There are four handlers:
  - get returns the stored cart, or an empty default that is not stored;
  - add prices a new line from the catalog (base price plus the variant's
    adjustment, where a missing adjustment counts as 0), or grows the
    existing line for the same key and keeps that line's captured price;
  - update sets a line's quantity, and 0 removes the line;
  - checkout needs a non-empty cart and an address the user owns. It
    appends one order charging the stored total and then deletes the cart.

  Every mutation recomputes `total` with a left-to-right reduce. The cache,
  the order log, the catalog and the address book are plain maps, sets and
  sequences. Each handler is a pure function from the stores to the new
  stores plus a reply.
- **Properties** (`cart_properties.dfy`):
  - the store invariant holds over any sequence of calls: unique line keys,
    no zero-quantity line, the stored total equals Σ price × quantity, and
    every order charges the total of its own lines;
  - one user's request never changes another user's cart;
  - the order log is append-only;
  - repeated adds of the same variant accumulate;
  - a cart is checked out at most once;
  - a later catalog price change does not alter a line already in the cart;
  - two concrete runs hold: adding, merging, removing and then a refused
    checkout; and adding then checking out.
- **Role gate** (`role.dfy`) and **error replies** (`errors.dfy`). The gate
  is a pure decision: continue, `USER_NOT_FOUND`, or `FORBIDDEN`. The error
  handler copies an application error's fields into the reply. Any other
  error gets one fixed 500 reply.

Some behaviours of the code are worth stating explicitly:
- Setting the last line to 0 leaves a **stored cart with no lines**; the cart
  is not deleted. Checkout treats it exactly like a missing cart.
- The cart handlers' refusals carry only an error text and an HTTP status:
  404 for the add and update routes, 400 for checkout. There is no machine
  code. `CartModel.CartError`'s `Message` and `Status` hold these texts and
  statuses.
- Checkout is the only operation that deletes a cart.
- The add handler's variant test accepts inherited object property names
  such as "constructor" (see "## Findings"). The route table and the properties
  over it use the handler as written, `CartRoutes.AddItemAsWritten`;
  `CartRoutes.AddItem` is the corrected handler, which accepts only the shoe's
  own variant keys.

## Model

| member | source | states |
|---|---|---|
| CartTotal.Reduce | src/routes/cart.ts:141-142 | the handlers' left-to-right reduce from `acc` equals `acc` plus Σ price × quantity |
| CartTotal.TotalConcat | src/routes/cart.ts:141-142 | the total of two concatenated line lists is the sum of their totals |
| CartTotal.TotalAppend | src/routes/cart.ts:132-142 | appending a line raises the total by exactly that line's price × quantity |
| CartTotal.TotalUpdate | src/routes/cart.ts:222-226 | replacing one line changes the total by the difference of the two lines' subtotals |
| CartTotal.TotalRemove | src/routes/cart.ts:220-226 | splicing out one line lowers the total by exactly that line's subtotal |
| CartLines.FindLine | src/routes/cart.ts:125-127 | the index returned is the first line with that (shoeId, variantKey); no index (`findIndex`'s -1) exactly when no line has that key |
| CartLines.UnitPrice | src/routes/cart.ts:124 | a new line's price is the base price plus the variant's adjustment, and a missing adjustment counts as 0 |
| CartLines.LineName | src/routes/cart.ts:137 | a new line's name is the shoe's name, then " - ", then the variant key |
| CartLines.AddToLines | src/routes/cart.ts:125-139 | if a line has the key, the first one grows by the added quantity and keeps its price and name, and all other lines stay as they were; otherwise exactly one new line is appended at the end; the quantity held of the key grows by the added amount; keys stay unique; the total grows by the added quantity × the captured price |
| CartLines.GrowLine | src/routes/cart.ts:129-130 | growing the line for a key keeps it the first line for that key, keeps keys unique, and adds quantity × its captured price to the total |
| CartLines.AppendLine | src/routes/cart.ts:131-139 | appending a line whose key is absent makes it the line for that key and keeps keys unique |
| CartLines.SetLineQuantity | src/routes/cart.ts:219-223 | quantity 0 removes exactly that line and keeps the other lines in order; any other quantity changes only that line's quantity; keys stay unique; the total moves by the change in that line's subtotal |
| CartLines.RemovePreservesUnique | src/routes/cart.ts:220 | splicing out a line keeps the remaining keys unique |
| CartLines.RemoveDropsKey | src/routes/cart.ts:220 | when keys are unique, removing a key's line leaves no line for that key |
| CartRoutes.CartKey | src/routes/cart.ts:25 | a cart key is the prefix "cart:" followed by the user id |
| CartRoutes.CartKeyInjective | src/routes/cart.ts:25 | distinct users have distinct cart keys |
| CartRoutes.EmptyCart | src/routes/cart.ts:60-66 | the default cart has no lines, total 0, the requesting user's id, and is well formed |
| CartRoutes.GetCart | src/routes/cart.ts:59-66 | returns the stored cart if there is one, otherwise a cart with no lines and total 0; it never writes; under the store invariant the result is well formed |
| CartLines.UnitPriceAsWritten | src/routes/cart.ts:124 | as written, an own variant is priced like `UnitPrice`, and an inherited property name is priced at the bare base price |
| CartRoutes.StoreAdded | src/routes/cart.ts:114-146 | the shared add path always succeeds; only the user's cart entry changes; the total is recomputed; the new lines are exactly `AddToLines` of the old ones (so an existing line grows keeping its captured price and name, and every other line stays as it was); the quantity held of the key grows by the added amount; a new key's line is appended with the given price and the display name |
| CartRoutes.AddItemAsWritten | src/routes/cart.ts:100-146 | the add handler with the code's truthiness test `CartLines.VariantTruthy`: "Variant not found" exactly when the key is neither an own variant nor one of the property names every plain object inherits (`CartLines.InheritedKeys`); for a missing shoe or an own variant key it behaves exactly like `CartRoutes.AddItem`; on success the shoe exists and passes that test, only the user's cart entry changes, the total is recomputed, and the lines are exactly `AddToLines` of the old ones with the as-written price and the display name |
| CartRoutes.InheritedVariantKeyAccepted | src/routes/cart.ts:109-112 | for an inherited property name that is not an own variant key, the intended handler refuses with "Variant not found" and writes nothing, while the code as written stores a new line at the bare base price |
| CartRoutes.ConstructorVariantAccepted | src/routes/cart.ts:109-137 | concretely, the key "constructor" on a shoe with only "42-red" is refused by the intended handler, but as written it yields the line ("constructor", quantity 1, price 100, "Runner - constructor") |
| CartRoutes.AddItem | src/routes/cart.ts:100-146 | (intended variant test, see Findings) fails with "Shoe not found" exactly when the shoe is absent, and with "Variant not found" exactly when the variant key is absent; neither failure writes; on success only the user's cart entry changes, the stored total equals Σ price × quantity, the quantity held of the key grows by exactly the added amount, for a new key the line is appended with the catalog price and name, and the new lines are exactly `AddToLines` of the old ones, so for an existing key every other line stays as it was |
| CartRoutes.UpdateQuantity | src/routes/cart.ts:204-230 | fails with "Cart not found" exactly when no cart is stored, and with "Item not found in cart" exactly when no line has the key; neither failure writes; on success only the user's cart entry changes and the total is recomputed; when the stored cart is well formed (which the store invariant guarantees), the cart then holds exactly the requested quantity of the key; the line count drops by one exactly when the quantity is 0; the new lines are exactly `SetLineQuantity` of the old ones at the key's line, so a nonzero quantity changes only that line's quantity and keeps its price and name, and 0 removes just that line |
| CartRoutes.SetQuantityFinds | src/routes/cart.ts:211-223 | after setting a key's line to q (with unique keys), the cart holds exactly q of that key, where 0 means no line |
| CartRoutes.Checkout | src/routes/cart.ts:265-298 | "Cart is empty" exactly when the cart is missing or has no lines; "Invalid address" exactly when the cart has lines but the address is not the user's; neither failure writes; on success exactly one order (user, address, stored total, lines) is appended, no earlier order changes, the user's cart entry is deleted, and the receipt names the new order |
| CartRoutes.Handle | src/routes/cart.ts:42-303 | each request is answered by its own handler as written: GET replies with `GetCart` and never writes; an add, an update or a checkout leaves exactly the stores `AddItemAsWritten`, `UpdateQuantity` or `Checkout` leaves and passes on that handler's cart, receipt or refusal; every failing route leaves the stores unchanged; a successful add or update replies with exactly the cart it stored under the user's key |
| CartModel.CartError.Status | src/routes/cart.ts:105-282 | a cart refusal's HTTP status is 404 or 400, and it is 400 exactly for the two checkout refusals (empty cart, foreign address) |
| CartModel.MessagesIdentifyCause | src/routes/cart.ts:105-282 | the six refusal texts of `CartModel.CartError.Message` are pairwise distinct, so a reply's `error` text identifies its cause |
| CartRoutes.HandleFailureReplies | src/routes/cart.ts:105-282 | every refusal of the add and update routes is a 404 and every checkout refusal a 400; each carries the text of its cause: "Shoe not found" or "Variant not found", "Cart not found" or "Item not found in cart", "Cart is empty" or "Invalid address" |
| CartProperties.HandlePreservesInv | src/routes/cart.ts:115-293 | every handler keeps each cached cart well formed (unique keys, quantities at least 1, stored total = Σ price × quantity) and each order's amount equal to the total of its lines |
| CartProperties.HandleIsolatesUsers | src/routes/cart.ts:42-303 | a request by one user never changes what another user's cart reads as, and every order it records belongs to the requesting user |
| CartProperties.HandleAppendsOrders | src/routes/cart.ts:284-293 | the order log only grows; it grows by exactly one order exactly when a checkout succeeds |
| CartProperties.RunPreservesInv | src/routes/cart.ts:42-303 | over any sequence of calls the store invariant holds, and no earlier order is lost or changed |
| CartProperties.RepeatedAdds | src/routes/cart.ts:129-130 | through the add handler as written, adding the same variant repeatedly leaves the cart holding its earlier quantity plus the sum of the added quantities |
| CartProperties.AddKeepsCapturedPrice | src/routes/cart.ts:124-130 | once a line is in the cart, adding more through the handler as written gives the same cart whatever the catalog now says about that shoe's price or name |
| CartProperties.CheckoutAtMostOnce | src/routes/cart.ts:266-293 | after a successful checkout the user's cart reads as empty, and a second checkout fails with "Cart is empty" and records no order |
| CartProperties.CheckoutChargesLines | src/routes/cart.ts:284-291 | under the store invariant, the new order charges exactly Σ price × quantity over its lines, and it has at least one line |
| CartProperties.EmptiedCartBlocksCheckout | src/routes/cart.ts:219-270 | setting a cart's only line to 0 leaves a stored cart with no lines and total 0, and checkout then fails with "Cart is empty" |
| CartProperties.ScenarioAddMergeRemove | src/routes/cart.ts:100-270 | adding 2 at 100 gives total 200; adding 1 more gives one line of quantity 3 and total 300; setting it to 0 empties the cart; checkout then fails with "Cart is empty" |
| CartProperties.ScenarioCheckout | src/routes/cart.ts:100-298 | adding 1 at 50 and then checking out to an owned address records one order of 50 with that line, and the cart reads as empty afterwards |
| AppErrors.OnError | src/errors/error-handler.ts:21-69 | the reply never reports success, and its HTTP status equals the body's status; an application error's status, message, code and details are copied unchanged; any other error gets status 500, "Internal Server Error", INTERNAL_ERROR, and no details |
| AppErrors.ForeignErrorsIndistinguishable | src/errors/error-handler.ts:21-28 | any two errors that are not application errors get the same reply, so their own message and code never reach the client |
| AppErrors.AppErrorsFaithful | src/errors/error-handler.ts:60-66 | two application errors get the same reply if and only if they are the same error (no field is dropped) |
| RoleGate.AllowedRoles | src/middleware/role.ts:8-24 | a missing user, or one with no role or an empty role, is rejected with USER_NOT_FOUND before any permission check; a user whose role is in the list continues, and only such a user; any other user is rejected with FORBIDDEN and status 403 |
| RoleGate.EmptyAllowedRejectsAll | src/middleware/role.ts:16-22 | with an empty list of allowed roles, every user that has a role is forbidden |
| RoleGate.AllowedRolesMonotone | src/middleware/role.ts:16 | allowing more roles never rejects a request that was let through, and does not change which requests get USER_NOT_FOUND |
| RoleGate.RejectionReply | src/middleware/role.ts:12-22 | a rejected request is answered 404 USER_NOT_FOUND when the user or role is missing, and 403 FORBIDDEN otherwise, when the application registers `errorHandler` |

## Left out

- Cache and database I/O. The Redis get/set/del calls and the Prisma lookups and inserts become map, set and sequence operations. A failing store is not modelled. The handlers rethrow any such error. What reply it then gets depends on the application's error-handler registration, which is outside the modelled files.
- Middleware wiring. Which routes apply `allowedRoles`, and whether the application registers `errorHandler`, is not part of this model. Both are modelled only as the functions their files define.
- Concurrency. Requests are applied one after another. The read-modify-write window between reading and writing a cart, and any lost update it allows, are not modelled.
- Number types. Prices, adjustments and quantities are integers, not JavaScript floating-point numbers. A quantity like 1.5, which the request schema would accept, is not modelled.
- Clock. `Date.now()` is the parameter `now`. The default cart's `createdAt` and `updatedAt` use the same reading.
- Request validation. The schemas' quantity bounds are preconditions and `nat` types: at least 1 for add, at least 0 for update. The validation-error reply itself, which comes from the router's validation hook, is not modelled.
- Path parameter parsing. The shoe id in the update path is an integer. A non-numeric id (`NaN`, which matches no line) is not modelled.
- Variant entries. An own entry that is present but holds a falsy JSON value would also be reported as missing; it is not modelled, because variant entries are objects.
- CartRoutes.AddItem: refuses inherited object property names as variant keys, which the code accepts. This follows the evident intent; `CartRoutes.AddItemAsWritten` models the code's behaviour, and "## Findings" records the difference.
- Order ids. The database generates an order's id. Here it is the new order's position in the order log.
- Unused order data. The brand and category fetched with the shoe are not modelled, and neither are the order's database timestamps.
- Authentication. The token check that puts the user on the request, JWT handling and password hashing are not part of this model.
- CRUD routes. The catalog, address, transaction and user routes are single database calls, so they are not modelled.
- Commented-out handler branches. The error handler's validation and database branches are commented out in the source, so they are not modelled.
- Logging. The error handler's console logging is not modelled.

## Findings

| source | as written | input that shows it | evidently intended | confidence | as-written member | corrected member |
|---|---|---|---|---|---|---|
| src/routes/cart.ts:109-112 | `!variants[body.variantKey]` tests the truthiness of a property read on a plain object, so inherited names such as "constructor", "toString" or "__proto__" pass | shoe 1 "Runner" (base price 100) with only the variant "42-red", variant key "constructor": a line "Runner - constructor" at price 100 is stored and the cart is returned | accept only keys of the shoe's own variants and answer "Variant not found" otherwise | medium, not executed | CartRoutes.InheritedVariantKeyAccepted | CartRoutes.AddItem |

=== FILE: cart_lines.dfy ===
/** The line-level edits behind the add and update handlers: locating a line
    by its key, merging or appending an added line, and setting or removing
    a line's quantity. */
module CartLines {
  import opened Wrappers
  import opened CartModel
  import opened CartTotal

  /** `items.findIndex(item => item.shoeId === shoeId && item.variantKey === variantKey)`:
      the index of the FIRST line for the key, or None (`findIndex`'s -1). */
  function FindLine(items: seq<Line>, shoeId: int, variantKey: string): (r: Option<nat>)
    ensures r.Some? ==> r.value < |items| && IsFor(items[r.value], shoeId, variantKey)
    ensures r.Some? ==> forall j | 0 <= j < r.value :: !IsFor(items[j], shoeId, variantKey)
    ensures r.None? <==> !HasLine(items, shoeId, variantKey)
    decreases |items|
  {
    if |items| == 0 then None
    else if IsFor(items[0], shoeId, variantKey) then Some(0)
    else
      match FindLine(items[1..], shoeId, variantKey)
      case None =>
        assert forall j | 1 <= j < |items| :: items[j] == items[1..][j - 1];
        None
      case Some(i) => Some(i + 1)
  }

  /** The quantity the cart holds of (shoeId, variantKey): that of the line
      `FindLine` locates, or 0 when there is none. */
  function QuantityOf(items: seq<Line>, shoeId: int, variantKey: string): nat {
    match FindLine(items, shoeId, variantKey)
    case Some(i) => items[i].quantity
    case None => 0
  }

  /** The unit price the line for `variantKey` of `shoe` gets when first
      added: base price plus the variant's adjustment, a missing adjustment
      counting as 0. */
  function UnitPrice(shoe: Shoe, variantKey: string): (p: int)
    requires variantKey in shoe.variants
    ensures shoe.variants[variantKey].priceAdjustment.None? ==> p == shoe.basePrice
    ensures shoe.variants[variantKey].priceAdjustment.Some? ==>
              p - shoe.basePrice == shoe.variants[variantKey].priceAdjustment.value
  {
    shoe.basePrice + shoe.variants[variantKey].priceAdjustment.GetOr(0)
  }

  /** The property names every plain JavaScript object inherits. Reading one
      of them from the variants object yields a function or the prototype
      object itself, both truthy, even when no variant has that key. */
  const InheritedKeys: set<string> := {
    "constructor", "hasOwnProperty", "isPrototypeOf", "propertyIsEnumerable",
    "toLocaleString", "toString", "valueOf", "__proto__",
    "__defineGetter__", "__defineSetter__", "__lookupGetter__", "__lookupSetter__"
  }

  /** The add handler's variant test as written, `variants[variantKey]` being
      truthy: an own variant (variant entries are objects) or an inherited
      property name. */
  predicate VariantTruthy(shoe: Shoe, variantKey: string) {
    variantKey in shoe.variants || variantKey in InheritedKeys
  }

  /** The unit price as written: base price plus `price_adjustment || 0` read
      from whatever `variants[variantKey]` yields; an inherited property has
      no `price_adjustment`, so it is priced at the base price. */
  function UnitPriceAsWritten(shoe: Shoe, variantKey: string): (p: int)
    requires VariantTruthy(shoe, variantKey)
    ensures variantKey in shoe.variants ==> p == UnitPrice(shoe, variantKey)
    ensures variantKey !in shoe.variants ==> p == shoe.basePrice
  {
    if variantKey in shoe.variants then UnitPrice(shoe, variantKey) else shoe.basePrice
  }

  /** The display name of a new line: "<shoe name> - <variant key>". */
  function LineName(shoe: Shoe, variantKey: string): (n: string)
    ensures |n| == |shoe.name| + 3 + |variantKey|
    ensures n[..|shoe.name|] == shoe.name && n[|shoe.name| + 3..] == variantKey
    ensures n[|shoe.name|..|shoe.name| + 3] == " - "
  {
    shoe.name + " - " + variantKey
  }

  /** Adds `quantity` of (shoeId, variantKey) to `items`: the first line for
      the key grows by `quantity` keeping its captured price and name,
      otherwise a new line priced `price` is appended at the end. */
  function AddToLines(items: seq<Line>, shoeId: int, variantKey: string, quantity: nat,
                      price: int, name: string): (r: seq<Line>)
    ensures HasLine(items, shoeId, variantKey) ==>
              var i := FindLine(items, shoeId, variantKey).value;
              && |r| == |items|
              && r[i].quantity == items[i].quantity + quantity
              && r[i] == items[i].(quantity := r[i].quantity)
              && (forall j | 0 <= j < |items| && j != i :: r[j] == items[j])
    ensures !HasLine(items, shoeId, variantKey) ==>
              && |r| == |items| + 1
              && r[..|items|] == items
              && r[|items|] == Line(shoeId, variantKey, quantity, price, name)
    ensures QuantityOf(r, shoeId, variantKey) == QuantityOf(items, shoeId, variantKey) + quantity
    ensures UniqueKeys(items) ==> UniqueKeys(r)
    ensures AllPositive(items) && quantity >= 1 ==> AllPositive(r)
    ensures Total(r) == Total(items) + quantity * (if HasLine(items, shoeId, variantKey)
                                                  then items[FindLine(items, shoeId, variantKey).value].price
                                                  else price)
  {
    match FindLine(items, shoeId, variantKey)
    case Some(i) =>
      GrowLine(items, shoeId, variantKey, i, quantity);
      items[i := items[i].(quantity := items[i].quantity + quantity)]
    case None =>
      AppendLine(items, Line(shoeId, variantKey, quantity, price, name));
      items + [Line(shoeId, variantKey, quantity, price, name)]
  }

  /** Growing the first line for a key by `quantity`: that line stays the
      first for its key, the total grows by its captured price times
      `quantity`, and keys stay unique. */
  lemma GrowLine(items: seq<Line>, shoeId: int, variantKey: string, i: nat, quantity: nat)
    requires FindLine(items, shoeId, variantKey) == Some(i)
    ensures var r := items[i := items[i].(quantity := items[i].quantity + quantity)];
            && FindLine(r, shoeId, variantKey) == Some(i)
            && Total(r) == Total(items) + quantity * items[i].price
            && (UniqueKeys(items) ==> UniqueKeys(r))
            && (AllPositive(items) ==> AllPositive(r))
  {
    var grown := items[i].(quantity := items[i].quantity + quantity);
    var r := items[i := grown];
    TotalUpdate(items, i, grown);
    assert Subtotal(grown) == Subtotal(items[i]) + quantity * items[i].price;
    assert forall j | 0 <= j < i :: r[j] == items[j];
    assert IsFor(r[i], shoeId, variantKey);
    assert HasLine(r, shoeId, variantKey);
  }

  /** Appending a line whose key is absent: it becomes the line for its
      key, the total grows by its subtotal, and keys stay unique. */
  lemma AppendLine(items: seq<Line>, added: Line)
    requires !HasLine(items, added.shoeId, added.variantKey)
    ensures var r := items + [added];
            && FindLine(r, added.shoeId, added.variantKey) == Some(|items|)
            && Total(r) == Total(items) + Subtotal(added)
            && (UniqueKeys(items) ==> UniqueKeys(r))
            && (AllPositive(items) && added.quantity >= 1 ==> AllPositive(r))
  {
    var r := items + [added];
    TotalAppend(items, added);
    assert forall j | 0 <= j < |items| :: r[j] == items[j];
    assert IsFor(r[|items|], added.shoeId, added.variantKey);
    assert HasLine(r, added.shoeId, added.variantKey);
  }

  /** The update handler's edit of line `i`: quantity 0 splices the line out,
      keeping the other lines in order; any other quantity replaces the
      line's quantity and nothing else. */
  function SetLineQuantity(items: seq<Line>, i: nat, quantity: nat): (r: seq<Line>)
    requires i < |items|
    ensures quantity == 0 ==>
              && |r| == |items| - 1
              && (forall j | 0 <= j < i :: r[j] == items[j])
              && (forall j | i <= j < |r| :: r[j] == items[j + 1])
    ensures quantity != 0 ==>
              && |r| == |items|
              && r[i] == items[i].(quantity := quantity)
              && (forall j | 0 <= j < |items| && j != i :: r[j] == items[j])
    ensures Total(r) == Total(items) - Subtotal(items[i]) + items[i].price * quantity
    ensures UniqueKeys(items) ==> UniqueKeys(r)
    ensures AllPositive(items) ==> AllPositive(r)
  {
    if quantity == 0 then
      var r := items[..i] + items[i + 1..];
      TotalRemove(items, i);
      RemovePreservesUnique(items, i);
      r
    else
      var r := items[i := items[i].(quantity := quantity)];
      TotalUpdate(items, i, items[i].(quantity := quantity));
      r
  }

  /** Splicing one line out keeps the remaining keys unique. */
  lemma RemovePreservesUnique(items: seq<Line>, i: nat)
    requires i < |items|
    ensures UniqueKeys(items) ==> UniqueKeys(items[..i] + items[i + 1..])
  {
    var r := items[..i] + items[i + 1..];
    if UniqueKeys(items) {
      forall a, b | 0 <= a < b < |r|
        ensures !IsFor(r[b], r[a].shoeId, r[a].variantKey)
      {
        var a' := if a < i then a else a + 1;
        var b' := if b < i then b else b + 1;
        assert r[a] == items[a'] && r[b] == items[b'];
      }
    }
  }

  /** With unique keys, removing the line for a key leaves no line for it. */
  lemma RemoveDropsKey(items: seq<Line>, i: nat)
    requires i < |items| && UniqueKeys(items)
    ensures !HasLine(items[..i] + items[i + 1..], items[i].shoeId, items[i].variantKey)
  {
    var r := items[..i] + items[i + 1..];
    forall j | 0 <= j < |r|
      ensures !IsFor(r[j], items[i].shoeId, items[i].variantKey)
    {
      if j < i {
        assert r[j] == items[j];
      } else {
        assert r[j] == items[j + 1];
      }
    }
  }
}

=== FILE: cart_model.dfy ===
/** The data the cart routes work on: cart lines, carts, the catalog they are
    priced against, the address book, the order log, and the error replies
    the handlers answer with. */
module CartModel {
  import opened Wrappers

  /** One cart line. `price` is the unit price captured when the line was
      first added; `name` is the display name "<shoe name> - <variant key>". */
  datatype Line = Line(shoeId: int, variantKey: string, quantity: nat, price: int, name: string)

  /** A cart as stored under its user's key. `total` is a stored field that
      every mutation recomputes from `items`. */
  datatype Cart = Cart(userId: string, items: seq<Line>, createdAt: int, updatedAt: int, total: int)

  /** A catalog variant; only its optional price adjustment matters to the cart. */
  datatype Variant = Variant(priceAdjustment: Option<int>)

  /** A catalog shoe: its name, base price and variants keyed by variant key. */
  datatype Shoe = Shoe(name: string, basePrice: int, variants: map<string, Variant>)

  /** The catalog, read-only from the cart's point of view: shoe id to shoe. */
  type Catalog = map<int, Shoe>

  /** An address record, reduced to the two columns checkout filters on. */
  datatype Address = Address(id: int, userId: string)

  /** An order (a `transaction` row): owner, delivery address, the amount
      charged and the lines bought. */
  datatype Order = Order(userId: string, addressId: int, totalAmount: int, items: seq<Line>)

  /** The mutable stores: the cart cache (Redis key to cart) and the
      append-only order log. */
  datatype State = State(carts: map<string, Cart>, orders: seq<Order>)

  /** The error replies the cart handlers return themselves. */
  datatype CartError =
    | ShoeNotFound
    | VariantNotFound
    | CartNotFound
    | ItemNotFound
    | CartEmpty
    | InvalidAddress
  {
    /** The `error` text of the JSON reply. */
    function Message(): string {
      match this
      case ShoeNotFound => "Shoe not found"
      case VariantNotFound => "Variant not found"
      case CartNotFound => "Cart not found"
      case ItemNotFound => "Item not found in cart"
      case CartEmpty => "Cart is empty"
      case InvalidAddress => "Invalid address"
    }

    /** The HTTP status of the reply: lookups that miss are 404, checkout
        refusals are 400. */
    function Status(): (status: int)
      ensures status == 404 || status == 400
      ensures status == 400 <==> this.CartEmpty? || this.InvalidAddress?
    {
      match this
      case ShoeNotFound => 404
      case VariantNotFound => 404
      case CartNotFound => 404
      case ItemNotFound => 404
      case CartEmpty => 400
      case InvalidAddress => 400
    }
  }

  /** Each refusal has its own text, so the `error` field of a reply names
      its cause. */
  lemma MessagesIdentifyCause(e1: CartError, e2: CartError)
    ensures e1.Message() == e2.Message() <==> e1 == e2
  {
  }

  /** What a handler does: the stores afterwards, and its reply. */
  datatype Step<T> = Step(state: State, result: Result<T, CartError>)

  /** The body of a successful checkout reply. */
  datatype Receipt = Receipt(message: string, transactionId: nat)

  /** The amount one line contributes to the cart total. */
  function Subtotal(l: Line): int {
    l.price * l.quantity
  }

  /** The reference total of a list of lines: the sum of price times
      quantity over all lines. */
  function Total(items: seq<Line>): int {
    if |items| == 0 then 0 else Subtotal(items[0]) + Total(items[1..])
  }

  /** Whether line `l` is the line for shoe `shoeId` in variant `variantKey`. */
  predicate IsFor(l: Line, shoeId: int, variantKey: string) {
    l.shoeId == shoeId && l.variantKey == variantKey
  }

  /** Whether some line of `items` is for (shoeId, variantKey). */
  predicate HasLine(items: seq<Line>, shoeId: int, variantKey: string) {
    exists j | 0 <= j < |items| :: IsFor(items[j], shoeId, variantKey)
  }

  /** No two lines share a (shoeId, variantKey) key. */
  predicate UniqueKeys(items: seq<Line>) {
    forall i, j | 0 <= i < j < |items| :: !IsFor(items[j], items[i].shoeId, items[i].variantKey)
  }

  /** Every line has a quantity of at least one. */
  predicate AllPositive(items: seq<Line>) {
    forall i | 0 <= i < |items| :: items[i].quantity >= 1
  }

  /** The invariant of every stored cart: unique keys, no zero-quantity
      line, and a stored total equal to the reference total. */
  predicate WellFormed(c: Cart) {
    UniqueKeys(c.items) && AllPositive(c.items) && c.total == Total(c.items)
  }

  /** The invariant of the stores: every cached cart is well formed and
      every order charges exactly the total of the lines it records. */
  predicate Inv(s: State) {
    && (forall k | k in s.carts :: WellFormed(s.carts[k]))
    && (forall i | 0 <= i < |s.orders| :: s.orders[i].totalAmount == Total(s.orders[i].items))
  }
}

=== FILE: cart_properties.dfy ===
/** Properties of the cart handlers that relate several calls: the store
    invariant, isolation between users, the append-only order log, repeated
    adds, checkout happening at most once per cart, the captured price, and
    two concrete runs (add, merge, remove, refused checkout; add, checkout). */
module CartProperties {
  import opened Wrappers
  import opened CartModel
  import opened CartTotal
  import opened CartLines
  import opened CartRoutes

  /** Every handler keeps every cached cart well formed (unique keys, no
      zero-quantity line, stored total equal to the sum of price times
      quantity) and every order's amount equal to the total of its lines. */
  lemma HandlePreservesInv(s: State, catalog: Catalog, addresses: set<Address>, userId: string,
                           req: Request, now: int)
    requires Inv(s) && PassesSchema(req)
    ensures Inv(Handle(s, catalog, addresses, userId, req, now).state)
  {
    var r := Handle(s, catalog, addresses, userId, req, now);
    match req
    case GetCartRequest =>
    case AddItemRequest(shoeId, variantKey, quantity) =>
      var a := AddItemAsWritten(s, catalog, userId, shoeId, variantKey, quantity, now);
      if a.result.Success? {
        assert WellFormed(a.result.value);
      }
    case UpdateItemRequest(shoeId, variantKey, quantity) =>
      var u := UpdateQuantity(s, userId, shoeId, variantKey, quantity, now);
      if u.result.Success? {
        assert WellFormed(s.carts[CartKey(userId)]);
      }
    case CheckoutRequest(addressId) =>
      var c := Checkout(s, addresses, userId, addressId);
      if c.result.Success? {
        var cart := s.carts[CartKey(userId)];
        assert WellFormed(cart);
        assert c.state.orders == s.orders + [Order(userId, addressId, cart.total, cart.items)];
      }
  }

  /** A request by one user never changes what another user's cart looks
      like, and never records an order for anybody else. */
  lemma HandleIsolatesUsers(s: State, catalog: Catalog, addresses: set<Address>, userId: string,
                            req: Request, now: int, other: string, later: int)
    requires PassesSchema(req) && other != userId
    ensures var r := Handle(s, catalog, addresses, userId, req, now);
            && GetCart(r.state, other, later) == GetCart(s, other, later)
            && (forall i | |s.orders| <= i < |r.state.orders| :: r.state.orders[i].userId == userId)
  {
    CartKeyInjective(userId, other);
    var r := Handle(s, catalog, addresses, userId, req, now);
    assert CartKey(other) in r.state.carts <==> CartKey(other) in s.carts;
    if CartKey(other) in s.carts {
      assert r.state.carts[CartKey(other)] == s.carts[CartKey(other)];
    }
  }

  /** Handlers only ever append to the order log, at most one order per call,
      and an order is appended exactly when a checkout succeeds. */
  lemma HandleAppendsOrders(s: State, catalog: Catalog, addresses: set<Address>, userId: string,
                            req: Request, now: int)
    requires PassesSchema(req)
    ensures var r := Handle(s, catalog, addresses, userId, req, now);
            && s.orders <= r.state.orders
            && (|r.state.orders| == |s.orders| + 1 <==> req.CheckoutRequest? && r.result.Success?)
            && (|r.state.orders| == |s.orders| <==> !(req.CheckoutRequest? && r.result.Success?))
  {
  }

  /** One call of the route table, by some user at some time. */
  datatype Call = Call(userId: string, req: Request, now: int)

  /** Whether every call of a trace passes the request schemas. */
  predicate AllPassSchema(calls: seq<Call>) {
    forall i | 0 <= i < |calls| :: PassesSchema(calls[i].req)
  }

  /** The stores after a sequence of calls, handled one after the other. */
  function Run(s: State, catalog: Catalog, addresses: set<Address>, calls: seq<Call>): State
    requires AllPassSchema(calls)
    decreases |calls|
  {
    if |calls| == 0 then s
    else Run(Handle(s, catalog, addresses, calls[0].userId, calls[0].req, calls[0].now).state,
             catalog, addresses, calls[1..])
  }

  /** Over any sequence of calls the invariant holds throughout and no
      order is ever lost or altered. */
  lemma {:induction false} RunPreservesInv(s: State, catalog: Catalog, addresses: set<Address>,
                                           calls: seq<Call>)
    requires Inv(s) && AllPassSchema(calls)
    ensures Inv(Run(s, catalog, addresses, calls))
    ensures s.orders <= Run(s, catalog, addresses, calls).orders
    decreases |calls|
  {
    if |calls| > 0 {
      var c := calls[0];
      var next := Handle(s, catalog, addresses, c.userId, c.req, c.now).state;
      HandlePreservesInv(s, catalog, addresses, c.userId, c.req, c.now);
      HandleAppendsOrders(s, catalog, addresses, c.userId, c.req, c.now);
      assert AllPassSchema(calls[1..]) by {
        forall i | 0 <= i < |calls[1..]| ensures PassesSchema(calls[1..][i].req) {
          assert calls[1..][i] == calls[i + 1];
        }
      }
      RunPreservesInv(next, catalog, addresses, calls[1..]);
    }
  }

  /** The sum of a list of quantities. */
  function Sum(qs: seq<nat>): nat {
    if |qs| == 0 then 0 else qs[0] + Sum(qs[1..])
  }

  /** Whether every quantity of the list passes the add schema (at least 1). */
  predicate AllAtLeastOne(qs: seq<nat>) {
    forall i | 0 <= i < |qs| :: qs[i] >= 1
  }

  /** The stores after adding each quantity of `qs`, in order, of the same
      shoe variant to one user's cart. */
  function AddAll(s: State, catalog: Catalog, userId: string, shoeId: int, variantKey: string,
                  qs: seq<nat>, now: int): State
    requires AllAtLeastOne(qs)
    decreases |qs|
  {
    if |qs| == 0 then s
    else AddAll(AddItemAsWritten(s, catalog, userId, shoeId, variantKey, qs[0], now).state,
                catalog, userId, shoeId, variantKey, qs[1..], now)
  }

  /** Repeated adds of one shoe variant accumulate: the cart holds what it
      held before plus the sum of the added quantities. */
  lemma {:induction false} RepeatedAdds(s: State, catalog: Catalog, userId: string, shoeId: int,
                                        variantKey: string, qs: seq<nat>, now: int)
    requires AllAtLeastOne(qs)
    requires shoeId in catalog && VariantTruthy(catalog[shoeId], variantKey)
    ensures QuantityOf(GetCart(AddAll(s, catalog, userId, shoeId, variantKey, qs, now), userId, now).items,
                       shoeId, variantKey)
            == QuantityOf(GetCart(s, userId, now).items, shoeId, variantKey) + Sum(qs)
    decreases |qs|
  {
    if |qs| > 0 {
      var next := AddItemAsWritten(s, catalog, userId, shoeId, variantKey, qs[0], now).state;
      assert AllAtLeastOne(qs[1..]) by {
        forall i | 0 <= i < |qs[1..]| ensures qs[1..][i] >= 1 {
          assert qs[1..][i] == qs[i + 1];
        }
      }
      RepeatedAdds(next, catalog, userId, shoeId, variantKey, qs[1..], now);
    }
  }

  /** A later catalog price change never reaches a line already in the
      cart: adding more of it gives the same cart whatever the catalog now
      says about that shoe, as long as the shoe and variant still exist. */
  lemma AddKeepsCapturedPrice(s: State, catalog1: Catalog, catalog2: Catalog, userId: string,
                              shoeId: int, variantKey: string, quantity: nat, now: int)
    requires quantity >= 1
    requires shoeId in catalog1 && VariantTruthy(catalog1[shoeId], variantKey)
    requires shoeId in catalog2 && VariantTruthy(catalog2[shoeId], variantKey)
    requires HasLine(GetCart(s, userId, now).items, shoeId, variantKey)
    ensures AddItemAsWritten(s, catalog1, userId, shoeId, variantKey, quantity, now)
            == AddItemAsWritten(s, catalog2, userId, shoeId, variantKey, quantity, now)
  {
    var items := GetCart(s, userId, now).items;
    var r1 := AddToLines(items, shoeId, variantKey, quantity,
                         UnitPriceAsWritten(catalog1[shoeId], variantKey), LineName(catalog1[shoeId], variantKey));
    var r2 := AddToLines(items, shoeId, variantKey, quantity,
                         UnitPriceAsWritten(catalog2[shoeId], variantKey), LineName(catalog2[shoeId], variantKey));
    assert r1 == r2;
  }

  /** After a successful checkout the user sees an empty cart, and checking
      out again is refused as an empty cart and records no second order. */
  lemma CheckoutAtMostOnce(s: State, addresses: set<Address>, userId: string, addressId: int,
                           addressId2: int, now: int)
    requires Checkout(s, addresses, userId, addressId).result.Success?
    ensures var s1 := Checkout(s, addresses, userId, addressId).state;
            && GetCart(s1, userId, now) == EmptyCart(userId, now)
            && Checkout(s1, addresses, userId, addressId2) == Step(s1, Failure(CartEmpty))
  {
  }

  /** Under the invariant, the amount a successful checkout charges is the
      sum of price times quantity over the lines it records. */
  lemma CheckoutChargesLines(s: State, addresses: set<Address>, userId: string, addressId: int)
    requires Inv(s)
    requires Checkout(s, addresses, userId, addressId).result.Success?
    ensures var s1 := Checkout(s, addresses, userId, addressId).state;
            s1.orders[|s.orders|].totalAmount == Total(s1.orders[|s.orders|].items)
            && |s1.orders[|s.orders|].items| > 0
  {
    assert WellFormed(s.carts[CartKey(userId)]);
  }

  /** Setting the only line of a cart to 0 leaves a stored cart with no
      lines, which checkout refuses exactly like a missing cart. */
  lemma EmptiedCartBlocksCheckout(s: State, addresses: set<Address>, userId: string, shoeId: int,
                                  variantKey: string, now: int, addressId: int)
    requires CartKey(userId) in s.carts
    requires |s.carts[CartKey(userId)].items| == 1
    requires IsFor(s.carts[CartKey(userId)].items[0], shoeId, variantKey)
    ensures var u := UpdateQuantity(s, userId, shoeId, variantKey, 0, now);
            && u.result.Success?
            && CartKey(userId) in u.state.carts
            && u.result.value.items == [] && u.result.value.total == 0
            && Checkout(u.state, addresses, userId, addressId) == Step(u.state, Failure(CartEmpty))
  {
    var items := s.carts[CartKey(userId)].items;
    assert HasLine(items, shoeId, variantKey);
  }

  /** A two-shoe catalog: shoe 1 "Runner" priced 100 with variant "42-red",
      and shoe 2 "Court" priced 50 with variant "M", neither adjusted. */
  function ScenarioCatalog(): Catalog {
    map[1 := Shoe("Runner", 100, map["42-red" := Variant(None)]),
        2 := Shoe("Court", 50, map["M" := Variant(None)])]
  }

  /** Add 2 of shoe 1 / "42-red" at 100 (total 200), add 1 more (quantity 3,
      total 300), set it to 0 (no lines), then checkout: "Cart is empty". */
  lemma ScenarioAddMergeRemove(userId: string, now: int, addresses: set<Address>, addressId: int)
    ensures var s0 := State(map[], []);
            var a1 := AddItemAsWritten(s0, ScenarioCatalog(), userId, 1, "42-red", 2, now);
            var a2 := AddItemAsWritten(a1.state, ScenarioCatalog(), userId, 1, "42-red", 1, now);
            var u := UpdateQuantity(a2.state, userId, 1, "42-red", 0, now);
            && a1.result.Success? && a1.result.value.total == 200
            && a2.result.Success? && a2.result.value.total == 300
            && a2.result.value.items == [Line(1, "42-red", 3, 100, "Runner - 42-red")]
            && u.result.Success? && u.result.value.items == [] && u.result.value.total == 0
            && Checkout(u.state, addresses, userId, addressId).result == Failure(CartEmpty)
  {
    var s0 := State(map[], []);
    var line := Line(1, "42-red", 2, 100, "Runner - 42-red");
    var shoe := ScenarioCatalog()[1];
    assert shoe == Shoe("Runner", 100, map["42-red" := Variant(None)]);
    assert UnitPrice(shoe, "42-red") == 100;
    assert LineName(shoe, "42-red") == "Runner - 42-red";
    assert !HasLine(GetCart(s0, userId, now).items, 1, "42-red");
    var a1 := AddItemAsWritten(s0, ScenarioCatalog(), userId, 1, "42-red", 2, now);
    assert a1.result.value.items == [line];
    TotalSingle(line);
    var a2 := AddItemAsWritten(a1.state, ScenarioCatalog(), userId, 1, "42-red", 1, now);
    assert IsFor(line, 1, "42-red");
    assert FindLine([line], 1, "42-red") == Some(0);
    assert a2.result.value.items == [line.(quantity := 3)];
    TotalSingle(line.(quantity := 3));
  }

  /** Add 1 of shoe 2 / "M" at 50, checkout to an address the user owns: one
      order of 50 with one line, and the user's cart reads as empty again. */
  lemma ScenarioCheckout(userId: string, now: int, later: int, addressId: int)
    ensures var s0 := State(map[], []);
            var a := AddItemAsWritten(s0, ScenarioCatalog(), userId, 2, "M", 1, now);
            var c := Checkout(a.state, {Address(addressId, userId)}, userId, addressId);
            && c.result == Success(Receipt("Checkout successful", 0))
            && c.state.orders == [Order(userId, addressId, 50, [Line(2, "M", 1, 50, "Court - M")])]
            && GetCart(c.state, userId, later) == EmptyCart(userId, later)
  {
    var s0 := State(map[], []);
    var line := Line(2, "M", 1, 50, "Court - M");
    var shoe := ScenarioCatalog()[2];
    assert shoe == Shoe("Court", 50, map["M" := Variant(None)]);
    assert UnitPrice(shoe, "M") == 50;
    assert LineName(shoe, "M") == "Court - M";
    assert !HasLine(GetCart(s0, userId, now).items, 2, "M");
    var a := AddItemAsWritten(s0, ScenarioCatalog(), userId, 2, "M", 1, now);
    assert a.result.value.items == [line];
    TotalSingle(line);
  }
}

=== FILE: cart_routes.dfy ===
/** The four cart handlers (get the cart, add an item, update an item's
    quantity, check out) as transitions over the cart cache and the order
    log, with the catalog and the address book as read-only inputs and the
    clock reading as the parameter `now`. */
module CartRoutes {
  import opened Wrappers
  import opened CartModel
  import opened CartTotal
  import opened CartLines

  /** The prefix of every cart key in the cache. */
  const CartKeyPrefix: string := "cart:"

  /** The cache key of a user's cart: "cart:" followed by the user id. */
  function CartKey(userId: string): (k: string)
    ensures |k| == |CartKeyPrefix| + |userId|
    ensures k[..|CartKeyPrefix|] == CartKeyPrefix && k[|CartKeyPrefix|..] == userId
  {
    CartKeyPrefix + userId
  }

  /** Distinct users have distinct cart keys, so no handler ever touches
      another user's cart. */
  lemma CartKeyInjective(u: string, v: string)
    ensures CartKey(u) == CartKey(v) ==> u == v
  {
    if CartKey(u) == CartKey(v) {
      assert u == CartKey(u)[|CartKeyPrefix|..];
      assert v == CartKey(v)[|CartKeyPrefix|..];
    }
  }

  /** The cart a user sees when none is stored: no lines, total 0, both
      timestamps `now`. */
  function EmptyCart(userId: string, now: int): (c: Cart)
    ensures WellFormed(c) && |c.items| == 0 && c.userId == userId
  {
    Cart(userId, [], now, now, 0)
  }

  /** GET /: the stored cart, or the empty default, which is not stored.
      Taking only the state and returning only a cart, it cannot write. */
  function GetCart(s: State, userId: string, now: int): (c: Cart)
    ensures CartKey(userId) in s.carts ==> c == s.carts[CartKey(userId)]
    ensures CartKey(userId) !in s.carts ==> c.items == [] && c.total == 0 && c.userId == userId
    ensures Inv(s) ==> WellFormed(c)
  {
    if CartKey(userId) in s.carts then s.carts[CartKey(userId)] else EmptyCart(userId, now)
  }

  /** POST /items: adds `quantity` (at least 1, as the request schema demands)
      of a shoe variant to the user's cart, creating the cart if needed. */
  function AddItem(s: State, catalog: Catalog, userId: string, shoeId: int, variantKey: string,
                   quantity: nat, now: int): (r: Step<Cart>)
    requires quantity >= 1
    ensures r.result == Failure(ShoeNotFound) <==> shoeId !in catalog
    ensures r.result == Failure(VariantNotFound) <==>
              shoeId in catalog && variantKey !in catalog[shoeId].variants
    ensures r.result.Failure? ==> r.state == s
    ensures r.result.Success? ==>
              var before := GetCart(s, userId, now);
              var c := r.result.value;
              && r.state == s.(carts := s.carts[CartKey(userId) := c])
              && c.total == Total(c.items)
              && c.userId == before.userId && c.createdAt == before.createdAt && c.updatedAt == now
              && QuantityOf(c.items, shoeId, variantKey) == QuantityOf(before.items, shoeId, variantKey) + quantity
              && (WellFormed(before) ==> WellFormed(c))
              && (!HasLine(before.items, shoeId, variantKey) ==>
                    c.items == before.items + [Line(shoeId, variantKey, quantity,
                                                    UnitPrice(catalog[shoeId], variantKey),
                                                    LineName(catalog[shoeId], variantKey))])
              && c.items == AddToLines(before.items, shoeId, variantKey, quantity,
                                       UnitPrice(catalog[shoeId], variantKey), LineName(catalog[shoeId], variantKey))
  {
    if shoeId !in catalog then Step(s, Failure(ShoeNotFound))
    else if variantKey !in catalog[shoeId].variants then Step(s, Failure(VariantNotFound))
    else StoreAdded(s, catalog[shoeId], userId, shoeId, variantKey, quantity,
                    UnitPrice(catalog[shoeId], variantKey), now)
  }

  /** The add handler once the shoe and variant have been accepted: merges
      or appends the line priced `price` into the user's cart (or a fresh
      one), recomputes the total and stores the cart. */
  function StoreAdded(s: State, shoe: Shoe, userId: string, shoeId: int, variantKey: string,
                      quantity: nat, price: int, now: int): (r: Step<Cart>)
    ensures r.result.Success?
    ensures var before := GetCart(s, userId, now);
            var c := r.result.value;
            && r.state == s.(carts := s.carts[CartKey(userId) := c])
            && c.total == Total(c.items)
            && c.userId == before.userId && c.createdAt == before.createdAt && c.updatedAt == now
            && QuantityOf(c.items, shoeId, variantKey) == QuantityOf(before.items, shoeId, variantKey) + quantity
            && (WellFormed(before) && quantity >= 1 ==> WellFormed(c))
            && (!HasLine(before.items, shoeId, variantKey) ==>
                  c.items == before.items + [Line(shoeId, variantKey, quantity, price, LineName(shoe, variantKey))])
            && c.items == AddToLines(before.items, shoeId, variantKey, quantity, price, LineName(shoe, variantKey))
  {
    var cart := GetCart(s, userId, now);
    var items := AddToLines(cart.items, shoeId, variantKey, quantity, price, LineName(shoe, variantKey));
    var updated := cart.(items := items, total := Reduce(items, 0), updatedAt := now);
    Step(s.(carts := s.carts[CartKey(userId) := updated]), Success(updated))
  }

  /** POST /items exactly as written: the variant test is the truthiness of
      `variants[variantKey]`, which inherited object property names pass. */
  function AddItemAsWritten(s: State, catalog: Catalog, userId: string, shoeId: int, variantKey: string,
                            quantity: nat, now: int): (r: Step<Cart>)
    requires quantity >= 1
    ensures r.result == Failure(ShoeNotFound) <==> shoeId !in catalog
    ensures r.result == Failure(VariantNotFound) <==>
              shoeId in catalog && variantKey !in catalog[shoeId].variants && variantKey !in InheritedKeys
    ensures r.result.Failure? ==> r.state == s
    ensures shoeId !in catalog || variantKey in catalog[shoeId].variants ==>
              r == AddItem(s, catalog, userId, shoeId, variantKey, quantity, now)
    ensures r.result.Success? ==>
              var before := GetCart(s, userId, now);
              var c := r.result.value;
              && shoeId in catalog && VariantTruthy(catalog[shoeId], variantKey)
              && r.state == s.(carts := s.carts[CartKey(userId) := c])
              && c.total == Total(c.items)
              && c.userId == before.userId && c.createdAt == before.createdAt && c.updatedAt == now
              && c.items == AddToLines(before.items, shoeId, variantKey, quantity,
                                       UnitPriceAsWritten(catalog[shoeId], variantKey),
                                       LineName(catalog[shoeId], variantKey))
              && (WellFormed(before) ==> WellFormed(c))
  {
    if shoeId !in catalog then Step(s, Failure(ShoeNotFound))
    else if !VariantTruthy(catalog[shoeId], variantKey) then Step(s, Failure(VariantNotFound))
    else StoreAdded(s, catalog[shoeId], userId, shoeId, variantKey, quantity,
                    UnitPriceAsWritten(catalog[shoeId], variantKey), now)
  }

  /** The discrepancy between the two: an inherited property name such as
      "constructor", absent from the shoe's variants, is refused by the
      intended handler but accepted as written, which stores a line named
      "<shoe name> - constructor" at the bare base price. */
  lemma InheritedVariantKeyAccepted(s: State, catalog: Catalog, userId: string, shoeId: int,
                                    variantKey: string, quantity: nat, now: int)
    requires quantity >= 1
    requires shoeId in catalog && variantKey !in catalog[shoeId].variants && variantKey in InheritedKeys
    requires !HasLine(GetCart(s, userId, now).items, shoeId, variantKey)
    ensures AddItem(s, catalog, userId, shoeId, variantKey, quantity, now) == Step(s, Failure(VariantNotFound))
    ensures var w := AddItemAsWritten(s, catalog, userId, shoeId, variantKey, quantity, now);
            var shoe := catalog[shoeId];
            && w.result.Success?
            && w.state.carts[CartKey(userId)] == w.result.value
            && w.result.value.items == GetCart(s, userId, now).items
                 + [Line(shoeId, variantKey, quantity, shoe.basePrice, shoe.name + " - " + variantKey)]
  {
    var shoe := catalog[shoeId];
    assert LineName(shoe, variantKey) == shoe.name + " - " + variantKey;
  }

  /** The shoe "Runner" (id 1, base price 100, one variant "42-red") as
      written accepts the variant key "constructor"; the intended handler
      answers "Variant not found". */
  lemma ConstructorVariantAccepted(userId: string, now: int)
    ensures var catalog := map[1 := Shoe("Runner", 100, map["42-red" := Variant(None)])];
            var s0 := State(map[], []);
            && AddItem(s0, catalog, userId, 1, "constructor", 1, now).result == Failure(VariantNotFound)
            && AddItemAsWritten(s0, catalog, userId, 1, "constructor", 1, now).result.value.items
               == [Line(1, "constructor", 1, 100, "Runner - constructor")]
  {
    var catalog := map[1 := Shoe("Runner", 100, map["42-red" := Variant(None)])];
    assert "constructor" in InheritedKeys;
    assert "constructor" !in catalog[1].variants;
    assert GetCart(State(map[], []), userId, now).items == [];
    assert "Runner" + " - " + "constructor" == "Runner - constructor";
    InheritedVariantKeyAccepted(State(map[], []), catalog, userId, 1, "constructor", 1, now);
  }

  /** PUT /items/{shoeId}/{variantKey}: sets the quantity of a line of the
      stored cart; 0 removes the line. The catalog is not consulted, so the
      line keeps its captured price. */
  function UpdateQuantity(s: State, userId: string, shoeId: int, variantKey: string,
                          quantity: nat, now: int): (r: Step<Cart>)
    ensures r.result == Failure(CartNotFound) <==> CartKey(userId) !in s.carts
    ensures r.result == Failure(ItemNotFound) <==>
              CartKey(userId) in s.carts && !HasLine(s.carts[CartKey(userId)].items, shoeId, variantKey)
    ensures r.result.Failure? ==> r.state == s
    ensures r.result.Success? ==>
              var before := s.carts[CartKey(userId)];
              var c := r.result.value;
              && r.state == s.(carts := s.carts[CartKey(userId) := c])
              && c.total == Total(c.items)
              && c.userId == before.userId && c.createdAt == before.createdAt && c.updatedAt == now
              && (WellFormed(before) ==> WellFormed(c) && QuantityOf(c.items, shoeId, variantKey) == quantity)
              && (quantity == 0 <==> |c.items| == |before.items| - 1)
              && HasLine(before.items, shoeId, variantKey)
              && c.items == SetLineQuantity(before.items, FindLine(before.items, shoeId, variantKey).value, quantity)
  {
    var key := CartKey(userId);
    if key !in s.carts then Step(s, Failure(CartNotFound))
    else
      var cart := s.carts[key];
      match FindLine(cart.items, shoeId, variantKey)
      case None => Step(s, Failure(ItemNotFound))
      case Some(i) =>
        var items := SetLineQuantity(cart.items, i, quantity);
        var updated := cart.(items := items, total := Reduce(items, 0), updatedAt := now);
        SetQuantityFinds(cart.items, shoeId, variantKey, i, quantity);
        Step(s.(carts := s.carts[key := updated]), Success(updated))
  }

  /** After setting line `i` (the line for its key) to `quantity`, the cart
      holds exactly `quantity` of that key, provided keys were unique. */
  lemma SetQuantityFinds(items: seq<Line>, shoeId: int, variantKey: string, i: nat, quantity: nat)
    requires FindLine(items, shoeId, variantKey) == Some(i)
    ensures UniqueKeys(items) ==> QuantityOf(SetLineQuantity(items, i, quantity), shoeId, variantKey) == quantity
  {
    var r := SetLineQuantity(items, i, quantity);
    if UniqueKeys(items) {
      if quantity == 0 {
        RemoveDropsKey(items, i);
      } else {
        assert forall j | 0 <= j < i :: r[j] == items[j];
        assert IsFor(r[i], shoeId, variantKey);
        assert HasLine(r, shoeId, variantKey);
        assert FindLine(r, shoeId, variantKey) == Some(i);
      }
    }
  }

  /** POST /checkout: turns the user's cart into an order delivered to one of
      the user's addresses, then deletes the cart. The order charges the
      cart's stored total; the receipt names the new order's position in
      the order log. */
  function Checkout(s: State, addresses: set<Address>, userId: string, addressId: int): (r: Step<Receipt>)
    ensures r.result == Failure(CartEmpty) <==>
              CartKey(userId) !in s.carts || |s.carts[CartKey(userId)].items| == 0
    ensures r.result == Failure(InvalidAddress) <==>
              && CartKey(userId) in s.carts && |s.carts[CartKey(userId)].items| > 0
              && Address(addressId, userId) !in addresses
    ensures r.result.Failure? ==> r.state == s
    ensures r.result.Success? ==>
              var cart := s.carts[CartKey(userId)];
              && |r.state.orders| == |s.orders| + 1
              && r.state.orders[..|s.orders|] == s.orders
              && r.state.orders[|s.orders|] == Order(userId, addressId, cart.total, cart.items)
              && r.state.carts == s.carts - {CartKey(userId)}
              && r.result.value.transactionId == |s.orders|
  {
    var key := CartKey(userId);
    if key !in s.carts || |s.carts[key].items| == 0 then Step(s, Failure(CartEmpty))
    else if Address(addressId, userId) !in addresses then Step(s, Failure(InvalidAddress))
    else
      var cart := s.carts[key];
      var order := Order(userId, addressId, cart.total, cart.items);
      var created := s.(orders := s.orders + [order]);
      Step(created.(carts := created.carts - {key}),
           Success(Receipt("Checkout successful", |s.orders|)))
  }

  /** A request to the cart routes, after authentication and schema checks. */
  datatype Request =
    | GetCartRequest
    | AddItemRequest(shoeId: int, variantKey: string, quantity: nat)
    | UpdateItemRequest(shoeId: int, variantKey: string, quantity: nat)
    | CheckoutRequest(addressId: int)

  /** A successful reply: a cart, or a checkout receipt. */
  datatype Reply = CartReply(cart: Cart) | ReceiptReply(receipt: Receipt)

  /** Whether a request passes the request schemas' quantity bounds. */
  predicate PassesSchema(req: Request) {
    req.AddItemRequest? ==> req.quantity >= 1
  }

  /** The cart route table: dispatches an authenticated user's request to
      the handlers as written, so an add request takes the code's variant
      test. */
  function Handle(s: State, catalog: Catalog, addresses: set<Address>, userId: string,
                  req: Request, now: int): (r: Step<Reply>)
    requires PassesSchema(req)
    ensures r.result.Failure? ==> r.state == s
    ensures req.GetCartRequest? ==> r.state == s && r.result.Success?
    ensures r.result.Success? && r.result.value.CartReply? && !req.GetCartRequest? ==>
              CartKey(userId) in r.state.carts && r.state.carts[CartKey(userId)] == r.result.value.cart
    ensures req.GetCartRequest? ==> r.result == Success(CartReply(GetCart(s, userId, now)))
    ensures req.AddItemRequest? ==>
              var a := AddItemAsWritten(s, catalog, userId, req.shoeId, req.variantKey, req.quantity, now);
              && r.state == a.state
              && r.result == (if a.result.Success? then Success(CartReply(a.result.value)) else Failure(a.result.error))
    ensures req.UpdateItemRequest? ==>
              var u := UpdateQuantity(s, userId, req.shoeId, req.variantKey, req.quantity, now);
              && r.state == u.state
              && r.result == (if u.result.Success? then Success(CartReply(u.result.value)) else Failure(u.result.error))
    ensures req.CheckoutRequest? ==>
              var c := Checkout(s, addresses, userId, req.addressId);
              && r.state == c.state
              && r.result == (if c.result.Success? then Success(ReceiptReply(c.result.value)) else Failure(c.result.error))
  {
    match req
    case GetCartRequest => Step(s, Success(CartReply(GetCart(s, userId, now))))
    case AddItemRequest(shoeId, variantKey, quantity) =>
      var r := AddItemAsWritten(s, catalog, userId, shoeId, variantKey, quantity, now);
      Step(r.state, if r.result.Success? then Success(CartReply(r.result.value)) else Failure(r.result.error))
    case UpdateItemRequest(shoeId, variantKey, quantity) =>
      var r := UpdateQuantity(s, userId, shoeId, variantKey, quantity, now);
      Step(r.state, if r.result.Success? then Success(CartReply(r.result.value)) else Failure(r.result.error))
    case CheckoutRequest(addressId) =>
      var r := Checkout(s, addresses, userId, addressId);
      Step(r.state, if r.result.Success? then Success(ReceiptReply(r.result.value)) else Failure(r.result.error))
  }

  /** Every refusal of the cart routes is answered with its own text: 404
      for the add and update routes (a missing shoe, variant, cart or line),
      400 for checkout (an empty cart or a foreign address). */
  lemma HandleFailureReplies(s: State, catalog: Catalog, addresses: set<Address>, userId: string,
                             req: Request, now: int)
    requires PassesSchema(req)
    ensures var r := Handle(s, catalog, addresses, userId, req, now);
            r.result.Failure? ==>
              && (r.result.error.Status() == 404 <==> req.AddItemRequest? || req.UpdateItemRequest?)
              && (r.result.error.Status() == 400 <==> req.CheckoutRequest?)
              && (req.AddItemRequest? ==>
                    r.result.error.Message() == (if req.shoeId !in catalog then "Shoe not found" else "Variant not found"))
              && (req.UpdateItemRequest? ==>
                    r.result.error.Message() == (if CartKey(userId) !in s.carts then "Cart not found" else "Item not found in cart"))
              && (req.CheckoutRequest? ==>
                    r.result.error.Message() == (if GetCart(s, userId, now).items == [] then "Cart is empty" else "Invalid address"))
  {
  }
}


=== FILE: cart_total.dfy ===
/** The cart total: the left-to-right accumulation the handlers perform after
    each mutation, and how the reference total reacts to appending,
    replacing and removing lines. */
module CartTotal {
  import opened CartModel

  /** The handlers' `items.reduce((sum, item) => sum + item.price * item.quantity, acc)`:
      a left-to-right accumulation starting from `acc`. It always lands on
      `acc` plus the reference total. */
  function Reduce(items: seq<Line>, acc: int): (r: int)
    ensures r == acc + Total(items)
    decreases |items|
  {
    if |items| == 0 then acc else Reduce(items[1..], acc + Subtotal(items[0]))
  }

  /** The total of a concatenation is the sum of the totals. */
  lemma {:induction false} TotalConcat(a: seq<Line>, b: seq<Line>)
    ensures Total(a + b) == Total(a) + Total(b)
    decreases |a|
  {
    if |a| == 0 {
      assert a + b == b;
    } else {
      assert (a + b)[1..] == a[1..] + b;
      TotalConcat(a[1..], b);
    }
  }

  /** A single line contributes its subtotal. */
  lemma TotalSingle(x: Line)
    ensures Total([x]) == Subtotal(x)
  {
    assert [x][1..] == [];
  }

  /** Replacing line `i` by `x` changes the total by the difference of
      their subtotals. */
  lemma TotalUpdate(s: seq<Line>, i: nat, x: Line)
    requires i < |s|
    ensures Total(s[i := x]) == Total(s) - Subtotal(s[i]) + Subtotal(x)
  {
    var pre, post := s[..i], s[i + 1..];
    assert s == (pre + [s[i]]) + post;
    assert s[i := x] == (pre + [x]) + post;
    TotalConcat(pre + [s[i]], post);
    TotalConcat(pre + [x], post);
    TotalAppend(pre, s[i]);
    TotalAppend(pre, x);
  }

  /** Removing line `i` lowers the total by exactly its subtotal. */
  lemma TotalRemove(s: seq<Line>, i: nat)
    requires i < |s|
    ensures Total(s[..i] + s[i + 1..]) == Total(s) - Subtotal(s[i])
  {
    var pre, post := s[..i], s[i + 1..];
    assert s == (pre + [s[i]]) + post;
    TotalConcat(pre + [s[i]], post);
    TotalAppend(pre, s[i]);
    TotalConcat(pre, post);
  }

  /** Appending a line raises the total by exactly its subtotal. */
  lemma TotalAppend(s: seq<Line>, x: Line)
    ensures Total(s + [x]) == Total(s) + Subtotal(x)
  {
    TotalConcat(s, [x]);
    TotalSingle(x);
  }
}

=== FILE: errors.dfy ===
/** Application errors and the global error handler that turns anything a
    handler throws into the JSON error reply. */
module AppErrors {
  import opened Wrappers

  /** An `AppError`: an error carrying its own HTTP status, message, machine
      code and optional details (kept as opaque serialized text). */
  datatype AppError = AppError(status: int, message: string, code: string, details: Option<string>)

  /** A thrown value: an `AppError`, or any other error, of which only its
      own message and code are visible. */
  datatype Thrown = App(error: AppError) | Foreign(message: string, code: string)

  /** The `error` member of an error reply. */
  datatype ErrorBody = ErrorBody(status: int, message: string, code: string, details: Option<string>)

  /** The JSON error reply. */
  datatype ErrorResponse = ErrorResponse(success: bool, error: ErrorBody)

  /** What the handler sends: the JSON body and the HTTP status. */
  datatype HttpReply = HttpReply(body: ErrorResponse, status: int)

  /** The constant-table entry for an unknown or role-less user. */
  const UserNotFound: AppError := AppError(404, "User not found", "USER_NOT_FOUND", None)

  /** The reply body used for every error that is not an `AppError`. */
  const InternalError: ErrorBody := ErrorBody(500, "Internal Server Error", "INTERNAL_ERROR", None)

  /** The error handler's mapping from a thrown error to the reply. */
  function OnError(err: Thrown): (r: HttpReply)
    ensures !r.body.success
    ensures r.status == r.body.error.status
    ensures err.App? ==>
              && r.body.error.status == err.error.status
              && r.body.error.message == err.error.message
              && r.body.error.code == err.error.code
              && r.body.error.details == err.error.details
    ensures err.Foreign? ==>
              && r.status == 500
              && r.body.error.message == "Internal Server Error"
              && r.body.error.code == "INTERNAL_ERROR"
              && r.body.error.details.None?
  {
    var body :=
      if err.App? then ErrorBody(err.error.status, err.error.message, err.error.code, err.error.details)
      else InternalError;
    HttpReply(ErrorResponse(false, body), body.status)
  }

  /** Anything that is not an `AppError` gets one and the same reply,
      whatever it carries, so its own message and code never leak. */
  lemma ForeignErrorsIndistinguishable(m1: string, c1: string, m2: string, c2: string)
    ensures OnError(Foreign(m1, c1)) == OnError(Foreign(m2, c2))
  {
  }

  /** Two application errors get the same reply exactly when they are the
      same error: every field reaches the reply unchanged. */
  lemma AppErrorsFaithful(e1: AppError, e2: AppError)
    ensures OnError(App(e1)) == OnError(App(e2)) <==> e1 == e2
  {
    if OnError(App(e1)) == OnError(App(e2)) {
      assert OnError(App(e1)).body.error == OnError(App(e2)).body.error;
    }
  }
}

=== FILE: role.dfy ===
/** The role gate placed in front of routes: lets a request through when the
    authenticated user's role is one of the allowed roles, and otherwise
    throws the error the error handler turns into the reply. */
module RoleGate {
  import opened Wrappers
  import opened AppErrors

  /** The roles a route can allow. */
  datatype UserRole = Admin | User

  /** The stored spelling of a role. */
  function RoleName(r: UserRole): string {
    match r
    case Admin => "ADMIN"
    case User => "USER"
  }

  /** The user the authentication step put on the request; `role` is the
      stored role text, which may be missing. */
  datatype AuthUser = AuthUser(id: string, role: Option<string>)

  /** The gate's decision: call the next handler, or throw `error`. */
  datatype Decision = Continue | Reject(error: AppError)

  /** The error thrown for a role outside the allowed list. */
  const Forbidden: AppError :=
    AppError(403, "Insufficient permissions to access this resource", "FORBIDDEN", None)

  /** Whether the request carries a user with a role; the empty role text is
      falsy, so it counts as no role. */
  predicate HasRole(user: Option<AuthUser>) {
    user.Some? && user.value.role.Some? && user.value.role.value != ""
  }

  /** Whether `role` is the spelling of one of the allowed roles. */
  predicate Includes(allowed: seq<UserRole>, role: string) {
    exists i | 0 <= i < |allowed| :: RoleName(allowed[i]) == role
  }

  /** The gate built by `allowedRoles(allowed)`, applied to the request's user. */
  function AllowedRoles(allowed: seq<UserRole>, user: Option<AuthUser>): (d: Decision)
    ensures !HasRole(user) ==> d == Reject(UserNotFound)
    ensures HasRole(user) ==>
              (d == Continue <==> Includes(allowed, user.value.role.value))
    ensures d.Reject? && HasRole(user) ==> d.error == Forbidden
  {
    if !HasRole(user) then Reject(UserNotFound)
    else if !Includes(allowed, user.value.role.value) then Reject(Forbidden)
    else Continue
  }

  /** With no allowed roles, every user that has a role is forbidden, and a
      user without one is still reported as not found. */
  lemma EmptyAllowedRejectsAll(user: Option<AuthUser>)
    ensures AllowedRoles([], user) == (if HasRole(user) then Reject(Forbidden) else Reject(UserNotFound))
  {
  }

  /** Allowing more roles never turns a passing request into a rejected one,
      and never changes a rejection for a missing user or role. */
  lemma AllowedRolesMonotone(allowed: seq<UserRole>, more: seq<UserRole>, user: Option<AuthUser>)
    requires forall i | 0 <= i < |allowed| :: allowed[i] in more
    ensures AllowedRoles(allowed, user) == Continue ==> AllowedRoles(more, user) == Continue
    ensures AllowedRoles(allowed, user) == Reject(UserNotFound) <==>
            AllowedRoles(more, user) == Reject(UserNotFound)
  {
    if AllowedRoles(allowed, user) == Continue {
      var i :| 0 <= i < |allowed| && RoleName(allowed[i]) == user.value.role.value;
      var j :| 0 <= j < |more| && more[j] == allowed[i];
      assert RoleName(more[j]) == user.value.role.value;
    }
  }

  /** A request the gate rejects is answered 404 USER_NOT_FOUND when the user
      or role is missing, and 403 FORBIDDEN otherwise, never with the
      generic 500 reply, when the application registers `errorHandler`. */
  lemma RejectionReply(allowed: seq<UserRole>, user: Option<AuthUser>)
    requires AllowedRoles(allowed, user).Reject?
    ensures var reply := OnError(App(AllowedRoles(allowed, user).error));
            && !reply.body.success
            && (!HasRole(user) ==> reply.status == 404 && reply.body.error.code == "USER_NOT_FOUND")
            && (HasRole(user) ==> reply.status == 403 && reply.body.error.code == "FORBIDDEN")
  {
  }
}

=== FILE: wrappers.dfy ===
/** Optional values and success-or-error results, used for the catalog and
    cart lookups and for every handler outcome. */
module Wrappers {

  /** A value that may be missing (`undefined` / `null` on the wire). */
  datatype Option<+T> = None | Some(value: T) {

    /** The value, or `default` when it is missing (JavaScript's `x || d`
        for values whose only falsy form is "missing"). */
    function GetOr(default: T): T {
      match this
      case Some(v) => v
      case None => default
    }
  }

  /** The outcome of a handler: the value it answers with, or the error it
      reports instead. */
  datatype Result<+R, +E> = Success(value: R) | Failure(error: E)
}
